=== FILE: README.md ===
# XHProf run retention, modelled in Dafny

This project models the part of the XHProf Redis front end that keeps
profiled runs: `XHProfRuns_Default` in `xhprof_runs.php` and the
configuration code of the `Xhprof` class in `Xhprof.php`.

- **Saving a run (`save_run`).** A run is dropped when a positive
  `time_limit` is set and the root `main()` wall time is below it, or when
  the ignore-list guard `isIgnore()` says no. Otherwise `_checkLogNum` counts
  the run. Past `log_num` it pops the oldest id from the tail of the
  `{prefix}:run_id` list, deletes that run's `request_log` and `xhprof_log`
  keys, and decrements the counter again. Then `_saveToRedis` pushes a fresh
  id to the head of the list. It writes a summary row (wall time in seconds
  and memory in MB, each rounded to four places) and the serialized payload
  under the run's two keys.
- **Reading.** `get_run` unserializes the payload under the run's
  `xhprof_log` key. `list_runs` and `list_runs2` walk list positions
  `0..log_num` and skip ids whose summary is missing, falsy, or not a JSON
  array.
- **Naming.** `file_name` builds `run.type.xhprof`, under the directory
  unless the directory is empty.
- **Configuration.** `_defineConfig` turns the caller's option array into
  the configuration. A missing or empty `ui_dir_url_path` is an error. Every
  other option keeps the caller's value, falsy ones included, or takes its
  default when missing or null.
- **Report parameters.** `index()` drops each report parameter whose value
  compares equal, under PHP's loose `==`, to its declared default.

## Layout

| file | module | contents |
|---|---|---|
| `wrappers.dfy` | `Wrappers` | `Option`, `Result` |
| `php.dfy` | `Php` | the PHP values that options and parameters carry, `empty()`, integer numeric strings, and PHP 8's loose `==` |
| `rounding.dfy` | `Rounding` | exact round-half-away-from-zero division, with its uniqueness |
| `redis.dfy` | `Redis` | the abstract Redis state (keys, the run-id list, the counter) and the commands used |
| `xhprof_runs.dfy` | `XHProfRuns` | `file_name`, keys, `save_run` and its two phases, `get_run`, the listing filter, the invariants, and lemmas about one save |
| `retention.dfy` | `Retention` | sequences of saves: strict FIFO retention of the newest `log_num` runs |
| `xhprof.dfy` | `Xhprof` | `_defineConfig`, and the parameter pruning of `index()` |

## Modelling decisions

- **Redis state.** It is an immutable `Store(kv, index, counter)`. `index` is
  the `{prefix}:run_id` list, head first. `counter` is
  `{prefix}:run_id_num`. Every save is one atomic pure transition.
- **Stored values.** A `Blob` is one of:
  - a JSON-encoded summary row;
  - a PHP-serialized payload;
  - foreign text, together with whether `json_decode` turns it into an array.

  A serialized payload is not JSON, so the listing skips it. `get_run` only
  yields a payload stored as a serialized payload.
- **`json_encode` failure.** The request context records whether
  `json_encode` can encode the summary row. It cannot when a string of the
  row, such as a raw request URI, is not valid UTF-8. Then `json_encode`
  returns false and the summary key holds `""`. That run is counted, retained
  and fetchable, but `if(!$res) continue;` keeps it out of every listing
  (`XHProfRuns.UnencodableNeverListed`).
- **`uniqid()` and `isIgnore()`.** Each save request carries the id
  `uniqid()` would return (`freshId`) and the verdict of `isIgnore()`
  (`passesIgnore`). Lemmas that need a fresh id assume only that it is not
  already in the list.
- **`rpop` on an empty list.** It returns `false`, which concatenates as `""`.
  The model therefore deletes the keys `{prefix}:request_log:` and
  `{prefix}:xhprof_log:` in that case, as the code does.
- **Missing root entry.** If the payload has no `main()` entry and
  `time_limit > 0`, the run is rejected. PHP compares `null < x` as booleans,
  and that comparison is true for a positive `x`.
- **Rounding.** Rounding to four places is exact and goes half away from
  zero. Summary figures are integers counting ten-thousandths:
  - 2.5 s is `25000`;
  - `wt = round(wt_us * 10^4 / 10^6)`;
  - `mu = round(mu_bytes * 10^4 / 2^20)`. `mu` may be negative.
- **`lrange`.** `lrange(key, 0, log_num)` follows Redis semantics:
  - a negative stop counts from the tail;
  - a stop past the tail means the tail.
- **`empty()`.** It is true for `null`, `false`, `0`, `""`, `"0"` and `[]`.
  So `file_name` adds no directory prefix when the directory is `"0"`.
- **Option keys.** They are a datatype of the ten keys `_defineConfig` reads.
  No other key of the option array affects the configuration, so other keys
  are not represented.
- **Parameter pruning.** It compares with PHP 8's loose `==` (`Php.LooseEq`),
  as `Xhprof.php` line 45 does. A parameter value may be any modelled PHP
  value: the value of `all` may be the digit string `"0"` or null. Both
  compare equal to the default `0` and are dropped
  (`Xhprof.AllZeroPruned`).

Consequences of the code that a reader might not expect:
- The listing reads list positions `0..log_num` inclusive, so it reads up to
  `log_num + 1` ids.
- The ignore test is the opaque `isIgnore()` result.
- With `log_num <= 0` the list keeps exactly one run while the counter stays
  at 0 (`XHProfRuns.NonPositiveCapacityKeepsLatest`).

## Model

| member | source | states |
|---|---|---|
| XHProfRuns.FileName | src/xhprof/xhprof_lib/utils/xhprof_runs.php:80-89 | The name ends with `.type.xhprof` and starts with the run id. When the directory is not empty (neither `""` nor `"0"`), the name instead starts with `dir/`, followed by the run id. |
| XHProfRuns.FileNameRoundTrip | src/xhprof/xhprof_lib/utils/xhprof_runs.php:80-89 | The run id can be recovered from every file name built for a given directory and type. |
| XHProfRuns.FileNameInjective | src/xhprof/xhprof_lib/utils/xhprof_runs.php:83-86 | Two runs of one type in one directory never share a file name. |
| XHProfRuns.RequestKey | src/xhprof/xhprof_lib/utils/xhprof_runs.php:185 | A run's summary key is the prefix, then the 13 characters `:request_log:`, then the run id. |
| XHProfRuns.PayloadKey | src/xhprof/xhprof_lib/utils/xhprof_runs.php:190 | A run's payload key is the prefix, then the 12 characters `:xhprof_log:`, then the run id. |
| XHProfRuns.KeysDistinct | src/xhprof/xhprof_lib/utils/xhprof_runs.php:185-190 | The `request_log` and `xhprof_log` keys never collide, and each key determines its run id. |
| XHProfRuns.BelowTimeLimit | src/xhprof/xhprof_lib/utils/xhprof_runs.php:127 | A limit of zero or less drops no run. A run whose root wall time reaches the exact limit in microseconds is never dropped. |
| XHProfRuns.TimeLimitMonotone | src/xhprof/xhprof_lib/utils/xhprof_runs.php:127 | A run the time filter keeps is still kept when its root wall time grows. |
| XHProfRuns.Accepted | src/xhprof/xhprof_lib/utils/xhprof_runs.php:127-130 | No run is kept unless `isIgnore()` lets it through. With no positive limit, that verdict alone decides. |
| XHProfRuns.TimeLimitExamples | src/xhprof/xhprof_lib/utils/xhprof_runs.php:127 | With a 5 s limit, a 3,000,000 µs run is dropped and a 6,000,000 µs run is kept. A zero limit keeps even a run with no root entry. |
| XHProfRuns.Summarize | src/xhprof/xhprof_lib/utils/xhprof_runs.php:168-183 | If the root is absent or its wall time is not positive, wt = mu = 0. Otherwise wt and mu are the integers nearest to wt/10^6 and mu/2^20 in ten-thousandths, ties away from zero. The URI is server name plus request URI, the method defaults to `""`, and ip and time come from the request. |
| XHProfRuns.SummaryExamples | src/xhprof/xhprof_lib/utils/xhprof_runs.php:170-173 | 2,500,000 µs and 2,097,152 bytes give 2.5 s and 2.0 MB. A memory delta of -1 MB gives -1.0. A zero wall time gives 0 for both. |
| XHProfRuns.CheckLogNum | src/xhprof/xhprof_lib/utils/xhprof_runs.php:145-156 | Below capacity only the counter grows by one. Past capacity the counter is net unchanged, the list loses exactly its last id, exactly that id's two keys disappear (the keys for `""` on an empty list), and no stored value changes. |
| XHProfRuns.SummaryBlob | src/xhprof/xhprof_lib/utils/xhprof_runs.php:186 | The summary key gets the JSON summary row when it can be encoded. Otherwise it gets `""`, which is neither truthy nor a JSON array. |
| XHProfRuns.SaveToRedis | src/xhprof/xhprof_lib/utils/xhprof_runs.php:162-198 | The fresh id goes to the head of the list. The encoded summary (or `""`) and the payload are stored under its two keys. No other key changes, and the counter is untouched. |
| XHProfRuns.SaveRun | src/xhprof/xhprof_lib/utils/xhprof_runs.php:124-138 | `save_run` returns false exactly when the time filter or the ignore guard rejects the run, and then the store is unchanged. Otherwise it returns the fresh id, which heads the list. |
| XHProfRuns.GetRun | src/xhprof/xhprof_lib/utils/xhprof_runs.php:115-121 | The description names the run type. A payload is yielded exactly when the run's `xhprof_log` key holds a serialized payload. |
| XHProfRuns.KeepListable | src/xhprof/xhprof_lib/utils/xhprof_runs.php:211-216 | The kept ids are a subsequence of the ids, in the same order. An id is kept iff its summary is present, truthy and decodes to an array. A kept id appears exactly as often as in the input, and any other id never. |
| XHProfRuns.ListRuns | src/xhprof/xhprof_lib/utils/xhprof_runs.php:235-243 | The listing is a subsequence of list positions `0..log_num`, in the same order. It holds each id with a listable summary exactly as often as those positions do, and no other id. |
| Redis.LRangeFromHead | src/xhprof/xhprof_lib/utils/xhprof_runs.php:235 | `lrange(key, 0, stop)` is the prefix through position `stop`: the whole list past the tail, counted from the tail when negative, and empty below `-len`. |
| XHProfRuns.SaveKeepsBounded | src/xhprof/xhprof_lib/utils/xhprof_runs.php:145-167 | If `log_num >= 1` and counter = list length <= `log_num`, the same holds after an accepted save. The counter grows until it reaches `log_num`. |
| XHProfRuns.SaveBelowCapacity | src/xhprof/xhprof_lib/utils/xhprof_runs.php:148-192 | Below capacity the new list is the fresh id followed by the old list. Only the fresh run's two keys change. |
| XHProfRuns.SaveEvictsOldest | src/xhprof/xhprof_lib/utils/xhprof_runs.php:148-153 | At capacity, eviction is strict FIFO. The list becomes the fresh id followed by the old list minus its tail. The evicted id's two keys are gone, and every other key except the fresh run's two is unchanged. |
| XHProfRuns.SaveThenGet | src/xhprof/xhprof_lib/utils/xhprof_runs.php:119-120 | After an accepted save, `get_run` on the returned id yields the saved payload, and the `request_log` key holds its encoded summary (or `""`). |
| XHProfRuns.CheckLogNumKeepsConsistent | src/xhprof/xhprof_lib/utils/xhprof_runs.php:145-156 | The capacity check removes ids only, and every remaining id keeps its summary key and its payload. |
| XHProfRuns.SaveToRedisKeepsConsistent | src/xhprof/xhprof_lib/utils/xhprof_runs.php:166-192 | Pushing a fresh id and writing its keys keeps every listed run complete, with no id listed twice. |
| XHProfRuns.SaveKeepsConsistent | src/xhprof/xhprof_lib/utils/xhprof_runs.php:133-136 | With a fresh id, an accepted save keeps every listed run complete and the list free of repeats. |
| XHProfRuns.ListShowsAllRetained | src/xhprof/xhprof_lib/utils/xhprof_runs.php:232-243 | Within capacity, and with every retained summary JSON-encoded, the listing is exactly the run-id list, newest first. |
| XHProfRuns.SaveKeepsSummariesEncoded | src/xhprof/xhprof_lib/utils/xhprof_runs.php:145-192 | An accepted save with a fresh id and an encodable summary keeps every retained summary JSON-encoded. |
| XHProfRuns.NewestListedFirst | src/xhprof/xhprof_lib/utils/xhprof_runs.php:166-167 | Right after an accepted save whose summary could be encoded, the new run is the first one listed. |
| XHProfRuns.UnencodableNeverListed | src/xhprof/xhprof_lib/utils/xhprof_runs.php:239-240 | A run whose summary `json_encode` rejects heads the list and `get_run` returns it, but the listing never shows it. |
| XHProfRuns.NonPositiveCapacityKeepsLatest | src/xhprof/xhprof_lib/utils/xhprof_runs.php:148-153 | With `log_num <= 0` every save pops and then pushes, so the list holds only the latest run and the counter stays 0. |
| Retention.SaveAllKeepsNewest | src/xhprof/xhprof_lib/utils/xhprof_runs.php:145-167 | After any sequence of accepted saves, the list is the new ids (latest first) followed by the old list, cut to `log_num`, and the counter equals its length. |
| Retention.OldestEvicted | src/xhprof/xhprof_lib/utils/xhprof_runs.php:148-153 | Start from an empty store and accept more than `log_num` runs with distinct ids. Then the list holds `log_num` ids, the oldest run is gone, and each of the newest `log_num` runs is present. |
| Rounding.RoundDiv | src/xhprof/xhprof_lib/utils/xhprof_runs.php:171-172 | The result is the integer nearest to n/d. A tie goes away from zero, and the sign follows n. |
| Rounding.RoundDivUnique | src/xhprof/xhprof_lib/utils/xhprof_runs.php:171-172 | Any integer nearest to n/d, with ties broken away from zero, equals `RoundDiv(n, d)`. |
| Rounding.RoundDivOdd | src/xhprof/xhprof_lib/utils/xhprof_runs.php:172 | Rounding is symmetric: a freed memory amount rounds to the negation of the same amount allocated. |
| Xhprof.DefineConfig | src/xhprof/Xhprof.php:106-112 | The result is an error exactly when `ui_dir_url_path` is unset, null or `empty()`. Otherwise the UI path is the caller's value. |
| Xhprof.DefineConfigDefaults | src/xhprof/Xhprof.php:115-143 | Each defaulted option keeps the caller's value when it is set, falsy values included. It takes its default from the table (localhost, 6379, "", 0, "xhprof", 0, 1000, 3, []) when missing or null. |
| Xhprof.DefaultConfig | src/xhprof/Xhprof.php:116-141 | With only a UI path given, the configuration is the UI path plus every default. |
| Xhprof.FalsyOptionsKept | src/xhprof/Xhprof.php:108-130 | `""` and `0` supplied for `??` options pass through. A UI path of `"0"` or null is an error. |
| Xhprof.ConfigRoundTrip | src/xhprof/Xhprof.php:106-143 | Running `_defineConfig` on a configuration's own full option array gives that configuration back. |
| Php.LooseEq | src/xhprof/Xhprof.php:45 | PHP's `==` holds between any two equal values. |
| Php.LooseEqIntString | src/xhprof/Xhprof.php:45 | An int equals a string exactly when the string is numeric with that value. A non-numeric string is compared with the printed int, which never matches. |
| Php.LooseEqSymmetric | src/xhprof/Xhprof.php:45 | Loose `==` gives the same answer with its operands swapped, so comparing value to default or default to value agrees. |
| Php.LooseEqExamples | src/xhprof/Xhprof.php:45 | `"0" == 0`, `null == 0` and `null == ""` hold. |
| Php.LooseEqNonExamples | src/xhprof/Xhprof.php:45 | `"1" == 0`, `"abc" == 0`, `"0" == ""` and `null == "wt"` do not hold. |
| Xhprof.PruneDefaults | src/xhprof/Xhprof.php:43-48 | The loop yields exactly the reference pruning: the declared parameters whose value is not loosely equal to the default, with their values, in declaration order. |
| Xhprof.PrunedMembership | src/xhprof/Xhprof.php:43-48 | A (name, value) pair survives iff the name is declared, the value is its current value, and that value is not loosely equal to the declared default. |
| Xhprof.PrunedAllDefault | src/xhprof/Xhprof.php:23-48 | A request whose every parameter compares equal to its default keeps none of them. |
| Xhprof.AllZeroPruned | src/xhprof/Xhprof.php:30-48 | An `all` value of `"0"`, null or `0` is dropped, like the default `0`. |

## Left out

- The Redis client and `create_redis` are not modelled. They are replaced by
  the abstract store, and a failed connection is not modelled.
- Concurrent saves are not modelled. Interleaving `incr`, `rpop`, `decr` and
  `lPush` across requests could let the list exceed `log_num` for a while.
  Each save is one atomic transition here.
- `uniqid()` is a parameter, not a generator. Freshness is a hypothesis of
  the lemmas that need it.
- XHProfRuns.ListRuns: a foreign summary (one not written by `_saveToRedis`)
  is assumed to carry the row's field types. Under PHP 8, an array
  `request_uri` makes `urlencode` throw a TypeError, and so does a
  non-numeric `create_time` in `date`. That error aborts the whole listing:
  `list_runs` echoes nothing, and `list_runs2` stops after the rows it has
  echoed. The model lists every truthy foreign summary that decodes to an
  array.
- `serialize`, `unserialize`, `json_encode` and `json_decode` are opaque
  encodings. The `Blob` variants stand for them, and foreign text carries
  only whether it decodes to an array.
- `$_SERVER`, `xhprof_get_ip()` and `time()` are not modelled. Their values
  are fields of `RequestContext`.
- `isIgnore()` is only a boolean input. Its matching policy is not part of
  this model.
- XHProfRuns.Summarize: PHP float rounding (binary floating point and
  `round()`'s pre-rounding) is not modelled. The figures are exact rationals
  rounded half away from zero.
- The HTML, `echo` output and `X_VIEW_WTRED` colouring of `list_runs`,
  `list_runs2` and `index()` are not modelled. Only which ids are listed, and
  in what order, is modelled.
- The constructor's directory resolution (`ini_get`, `xhprof_error`) is not
  modelled. `FileName` takes the directory as given.
- `_init`, `xhprofStart`, `xhprofStop`, `register_shutdown_function`,
  `xhprof_enable` and `xhprof_disable` are not modelled. They are lifecycle
  glue and extension calls.
- `xhprof_param_init` and `displayXHProfReport` are not part of this model.
  The pruning takes the parameters' current values as input, whatever PHP
  values they are.
- Php.LooseEq: follows PHP 8. Under PHP 7, `"abc" == 0` holds. Float numeric
  strings (`"0.0"`, `"1e3"`) are not numeric here, so `"0.0" == 0` is
  false, where PHP says true. Floats are not modelled PHP values.
  Integers are unbounded: PHP reads an integer string outside the 64-bit
  range as a float, so `"9223372036854775808" == 9223372036854775807` holds
  in PHP 8 and not here, and `Int(i)` may hold values no PHP int can. No
  declared report default is affected.
- XHProfRuns.BelowTimeLimit: the limit is compared exactly, as the real
  `timeLimit * 1000000`. PHP computes `X_TIME_LIMIT * 1000 * 1000` in binary
  floating point, so a fractional limit can land just above the exact
  product. With a limit of 16.1, PHP gets `16100000.000000002` and drops a
  run of exactly 16,100,000 µs, which the model keeps. The same happens at
  4.03 and 2.007. Integer limits are exact in both.
- The `$type` and `$run_id` arguments of `save_run` are not modelled: the
  code ignores both (it overwrites `$run_id`).
- Configuration constants are not coerced into the store's settings. The
  store takes `Settings(prefix, timeLimit, logNum)` directly as a string, a
  real number of seconds and an integer. PHP's type juggling of a non-string
  `X_KEY_PREFIX` or non-numeric `X_LOG_NUM` is not modelled. Floating-point
  option values are not among the modelled PHP values.
- `define()` is not modelled: it makes process-wide constants, and here the
  configuration is a returned value.

=== FILE: php.dfy ===
/**
 * The slice of PHP's dynamic values that the configuration and the request
 * parameters carry, PHP's `empty()` test on them, and PHP 8's loose
 * comparison `==` between them.
 */
module Php {
  import opened Wrappers

  /** A PHP value. Floats and objects do not occur in the modelled code paths. */
  datatype PhpValue =
    | Null
    | Bool(b: bool)
    | Int(i: int)
    | Str(s: string)
    | Arr(items: seq<PhpValue>)

  /** PHP's `empty()` on a string: true for "" and for "0". */
  predicate EmptyString(s: string)
  {
    s == "" || s == "0"
  }

  /** PHP's `empty()`: null, false, 0, "", "0" and the empty array. */
  predicate Empty(v: PhpValue)
  {
    match v
    case Null => true
    case Bool(b) => !b
    case Int(i) => i == 0
    case Str(s) => EmptyString(s)
    case Arr(items) => |items| == 0
  }

  // ---------------------------------------------------------------- numeric strings

  predicate IsDigit(c: char)
  {
    '0' <= c <= '9'
  }

  predicate AllDigits(s: string)
  {
    forall i :: 0 <= i < |s| ==> IsDigit(s[i])
  }

  /** The whitespace PHP allows around a numeric string. */
  predicate IsWhitespace(c: char)
  {
    c == ' ' || c == '\t' || c == '\n' || c == '\r' || c == '\U{B}' || c == '\U{C}'
  }

  /** The value of a run of decimal digits. */
  function DigitsValue(s: string): (n: nat)
    requires AllDigits(s)
    decreases |s|
  {
    if |s| == 0 then 0 else 10 * DigitsValue(s[..|s| - 1]) + (s[|s| - 1] as int - '0' as int)
  }

  /** `s` without its leading whitespace. */
  function TrimLeft(s: string): (r: string)
    ensures |r| <= |s| && r == s[|s| - |r|..]
    ensures |r| > 0 ==> !IsWhitespace(r[0])
    ensures forall i :: 0 <= i < |s| - |r| ==> IsWhitespace(s[i])
    decreases |s|
  {
    if |s| > 0 && IsWhitespace(s[0]) then TrimLeft(s[1..]) else s
  }

  /** `s` without its trailing whitespace. */
  function TrimRight(s: string): (r: string)
    ensures |r| <= |s| && r == s[..|r|]
    ensures |r| > 0 ==> !IsWhitespace(r[|r| - 1])
    ensures forall i :: |r| <= i < |s| ==> IsWhitespace(s[i])
    decreases |s|
  {
    if |s| > 0 && IsWhitespace(s[|s| - 1]) then TrimRight(s[..|s| - 1]) else s
  }

  /** An optional sign followed by at least one decimal digit, read as an integer. */
  function SignedDigits(t: string): (r: Option<int>)
  {
    var negative := |t| > 0 && t[0] == '-';
    var body := if |t| > 0 && (t[0] == '+' || t[0] == '-') then t[1..] else t;
    if |body| == 0 || !AllDigits(body) then None
    else
      var n: int := DigitsValue(body);
      Some(if negative then -n else n)
  }

  /**
   * The value of an integer numeric string: optional surrounding whitespace,
   * an optional sign and at least one decimal digit. None for every other
   * string, including the float forms ("1.5", "1e3").
   */
  function IntegerString(s: string): Option<int>
  {
    SignedDigits(TrimRight(TrimLeft(s)))
  }

  /** The decimal digits of a natural number, as PHP prints it. */
  function NatString(n: nat): (s: string)
    ensures |s| > 0 && AllDigits(s)
    ensures |s| > 1 ==> s[0] != '0'
    decreases n
  {
    var d := [(('0' as int) + n % 10) as char];
    if n < 10 then d else NatString(n / 10) + d
  }

  /** How PHP prints an integer. */
  function IntString(i: int): string
  {
    if i < 0 then "-" + NatString(-i) else NatString(i)
  }

  lemma {:induction false} NatStringValue(n: nat)
    ensures DigitsValue(NatString(n)) == n
    decreases n
  {
    var s := NatString(n);
    if n >= 10 {
      NatStringValue(n / 10);
      assert s[..|s| - 1] == NatString(n / 10);
    }
  }

  /** A string with no whitespace at either end is its own trimming. */
  lemma Untrimmed(s: string)
    requires |s| > 0 && !IsWhitespace(s[0]) && !IsWhitespace(s[|s| - 1])
    ensures TrimRight(TrimLeft(s)) == s
  {
    assert TrimLeft(s) == s;
  }

  /** A run of digits reads as its value. */
  lemma IntegerStringOfDigits(digits: string)
    requires |digits| > 0 && AllDigits(digits)
    ensures IntegerString(digits) == Some(DigitsValue(digits) as int)
  {
    assert IsDigit(digits[0]) && IsDigit(digits[|digits| - 1]);
    Untrimmed(digits);
  }

  /** A minus sign followed by a run of digits reads as the negated value. */
  lemma IntegerStringOfNegated(digits: string)
    requires |digits| > 0 && AllDigits(digits)
    ensures IntegerString("-" + digits) == Some(-(DigitsValue(digits) as int))
  {
    var s := "-" + digits;
    assert s[|s| - 1] == digits[|digits| - 1];
    assert IsDigit(s[|s| - 1]);
    Untrimmed(s);
    SignedDigitsOfNegated(s, digits);
  }

  lemma SignedDigitsOfNegated(s: string, digits: string)
    requires |digits| > 0 && AllDigits(digits)
    requires s == "-" + digits
    ensures SignedDigits(s) == Some(-(DigitsValue(digits) as int))
  {
    assert s[0] == '-';
    assert s[1..] == digits;
  }

  /** Every printed integer reads back as the same integer. */
  lemma IntStringRoundTrip(i: int)
    ensures IntegerString(IntString(i)) == Some(i)
  {
    var n: nat := if i < 0 then -i else i;
    var digits := NatString(n);
    NatStringValue(n);
    if i < 0 {
      assert IntString(i) == "-" + digits;
      IntegerStringOfNegated(digits);
    } else {
      assert IntString(i) == digits;
      IntegerStringOfDigits(digits);
    }
  }

  // ---------------------------------------------------------------- loose comparison

  /**
   * PHP 8's `==`. A bool or null on either side compares truthiness (null
   * against a string compares with ""); two ints compare by value; an int
   * and a string are equal when the string is numeric with that value; two
   * numeric strings compare by value and any other two strings byte by byte;
   * two arrays are equal element by element; an array never equals a number
   * or a string.
   */
  function LooseEq(a: PhpValue, b: PhpValue): (r: bool)
    ensures a == b ==> r
    decreases a
  {
    match (a, b)
    case (Null, Null) => true
    case (Bool(x), _) => x == !Empty(b)
    case (_, Bool(y)) => !Empty(a) == y
    case (Null, Str(t)) => t == ""
    case (Str(s), Null) => s == ""
    case (Null, _) => Empty(b)
    case (_, Null) => Empty(a)
    case (Int(x), Int(y)) => x == y
    case (Int(x), Str(t)) => IntegerString(t) == Some(x)
    case (Str(s), Int(y)) => IntegerString(s) == Some(y)
    case (Str(s), Str(t)) =>
      if IntegerString(s).Some? && IntegerString(t).Some? then IntegerString(s) == IntegerString(t) else s == t
    case (Arr(x), Arr(y)) => |x| == |y| && forall i :: 0 <= i < |x| ==> LooseEq(x[i], y[i])
    case _ => false
  }

  /**
   * PHP 8's rule for an int and a string: a numeric string compares by
   * value, any other string is compared with the int as PHP prints it, which
   * never matches since a printed int is numeric.
   */
  lemma LooseEqIntString(x: int, t: string)
    ensures LooseEq(Int(x), Str(t)) ==
              if IntegerString(t).Some? then IntegerString(t).value == x else IntString(x) == t
  {
    IntStringRoundTrip(x);
  }

  /** Loose comparison does not depend on the order of its operands. */
  lemma {:induction false} LooseEqSymmetric(a: PhpValue, b: PhpValue)
    ensures LooseEq(a, b) == LooseEq(b, a)
    decreases a
  {
    match (a, b)
    case (Arr(x), Arr(y)) =>
      forall i | 0 <= i < |x| && i < |y|
        ensures LooseEq(x[i], y[i]) == LooseEq(y[i], x[i])
      {
        LooseEqSymmetric(x[i], y[i]);
      }
    case _ =>
  }

  /** Comparisons against the report parameters' defaults that hold although the values differ. */
  lemma LooseEqExamples()
    ensures LooseEq(Str("0"), Int(0)) && LooseEq(Null, Int(0)) && LooseEq(Null, Str(""))
  {
    IntegerStringOfDigits("0");
  }

  /** Comparisons against the report parameters' defaults that fail, as PHP 8 decides them. */
  lemma LooseEqNonExamples()
    ensures !LooseEq(Str("1"), Int(0)) && !LooseEq(Str("abc"), Int(0))
    ensures !LooseEq(Str("0"), Str("")) && !LooseEq(Null, Str("wt"))
  {
    IntegerStringOfDigits("1");
    Untrimmed("abc");
    assert !IsDigit("abc"[0]);
  }
}

=== FILE: redis.dfy ===
/**
 * An abstract Redis state for one key prefix: the plain string keys, the
 * run-id list stored under `{prefix}:run_id` (head first) and the counter
 * stored under `{prefix}:run_id_num`. Each command is one pure transition.
 */
module Redis {
  import opened Wrappers

  datatype Store<V> = Store(kv: map<string, V>, index: seq<string>, counter: int)

  /** LPUSH: the new element becomes the head of the list. */
  function LPush<V>(s: Store<V>, x: string): (r: Store<V>)
    ensures |r.index| == |s.index| + 1 && r.index[0] == x && r.index[1..] == s.index
    ensures r.kv == s.kv && r.counter == s.counter
  {
    s.(index := [x] + s.index)
  }

  /** RPOP: removes and returns the tail of the list, or nil when the list is empty. */
  function RPop<V>(s: Store<V>): (r: (Option<string>, Store<V>))
    ensures |s.index| == 0 ==> r.0 == None && r.1 == s
    ensures |s.index| > 0 ==> r.0 == Some(s.index[|s.index| - 1])
    ensures |s.index| > 0 ==> r.1.index + [r.0.value] == s.index
    ensures r.1.kv == s.kv && r.1.counter == s.counter
  {
    if |s.index| == 0 then (None, s)
    else (Some(s.index[|s.index| - 1]), s.(index := s.index[..|s.index| - 1]))
  }

  /** DEL: the key is gone; every other key keeps its value. */
  function Del<V>(s: Store<V>, k: string): (r: Store<V>)
    ensures k !in r.kv
    ensures forall j :: j != k ==> (j in r.kv <==> j in s.kv)
    ensures forall j :: j in r.kv ==> r.kv[j] == s.kv[j]
    ensures r.index == s.index && r.counter == s.counter
  {
    s.(kv := s.kv - {k})
  }

  /** SET: the key holds the value; every other key keeps its value. */
  function Set<V>(s: Store<V>, k: string, v: V): (r: Store<V>)
    ensures k in r.kv && r.kv[k] == v
    ensures forall j :: j != k ==> (j in r.kv <==> j in s.kv)
    ensures forall j :: j != k && j in r.kv ==> r.kv[j] == s.kv[j]
    ensures r.index == s.index && r.counter == s.counter
  {
    s.(kv := s.kv[k := v])
  }

  /** GET: the value under the key, or nil. */
  function Get<V>(s: Store<V>, k: string): (r: Option<V>)
    ensures r.Some? <==> k in s.kv
    ensures r.Some? ==> r.value == s.kv[k]
  {
    if k in s.kv then Some(s.kv[k]) else None
  }

  /**
   * LRANGE key 0 stop: the elements from the head up to index `stop`
   * inclusive. A negative stop counts from the tail (-1 is the last
   * element), and a stop past the tail means the tail.
   */
  function LRangeFromHead(xs: seq<string>, stop: int): (r: seq<string>)
    ensures 0 <= stop < |xs| ==> r == xs[..stop + 1]
    ensures stop >= |xs| ==> r == xs
    ensures -|xs| <= stop < 0 ==> r == xs[..|xs| + stop + 1]
    ensures stop < -|xs| ==> r == []
    ensures |r| <= |xs| && r == xs[..|r|]
  {
    var last := if stop < 0 then |xs| + stop else stop;
    if last < 0 then []
    else if last >= |xs| then xs
    else xs[..last + 1]
  }
}

=== FILE: retention.dfy ===
/**
 * Retention over a sequence of saves: from any store within capacity, a run
 * of accepted saves leaves exactly the newest `log_num` run ids, newest first.
 */
module Retention {
  import opened Redis
  import opened XHProfRuns

  function Min(a: int, b: int): int
  {
    if a <= b then a else b
  }

  /** The store after each save of the sequence, in order. */
  function SaveAll(cfg: Settings, s: Store<Blob>, reqs: seq<SaveRequest>): Store<Blob>
    decreases |reqs|
  {
    if |reqs| == 0 then s
    else SaveRun(cfg, SaveAll(cfg, s, reqs[..|reqs| - 1]), reqs[|reqs| - 1]).store
  }

  predicate AllAccepted(cfg: Settings, reqs: seq<SaveRequest>)
  {
    forall i :: 0 <= i < |reqs| ==> Accepted(cfg, reqs[i])
  }

  /**
   * Position j of the list after the saves `reqs` were pushed onto the list
   * `tail`: the j-th latest new id, then the old list.
   */
  function Slot(reqs: seq<SaveRequest>, tail: seq<string>, j: int): string
    requires 0 <= j < |reqs| + |tail|
  {
    if j < |reqs| then reqs[|reqs| - 1 - j].freshId else tail[j - |reqs|]
  }

  /** `index` is the newest-first list of `reqs` over `tail`, cut to capacity. */
  predicate HoldsNewest(index: seq<string>, reqs: seq<SaveRequest>, tail: seq<string>, cap: int)
  {
    && |index| == Min(|reqs| + |tail|, cap)
    && forall j :: 0 <= j < |index| ==> index[j] == Slot(reqs, tail, j)
  }

  /** One accepted save puts the new id in front of the list, cut to capacity. */
  lemma SaveIndexStep(cfg: Settings, p: Store<Blob>, req: SaveRequest)
    requires Bounded(p, cfg.logNum) && Accepted(cfg, req)
    ensures var r := SaveRun(cfg, p, req).store;
      && Bounded(r, cfg.logNum)
      && |r.index| == Min(|p.index| + 1, cfg.logNum)
      && r.index[0] == req.freshId
      && forall j :: 1 <= j < |r.index| ==> r.index[j] == p.index[j - 1]
  {
    SaveKeepsBounded(cfg, p, req);
    if p.counter < cfg.logNum {
      SaveBelowCapacity(cfg, p, req);
    }
  }

  /** The last save of a sequence, seen from the store the earlier saves left behind. */
  lemma SaveAllStep(cfg: Settings, s: Store<Blob>, reqs: seq<SaveRequest>)
    requires |reqs| > 0
    requires Bounded(SaveAll(cfg, s, reqs[..|reqs| - 1]), cfg.logNum)
    requires Accepted(cfg, reqs[|reqs| - 1])
    ensures var p := SaveAll(cfg, s, reqs[..|reqs| - 1]);
      var r := SaveAll(cfg, s, reqs);
      && Bounded(r, cfg.logNum)
      && |r.index| == Min(|p.index| + 1, cfg.logNum)
      && r.index[0] == reqs[|reqs| - 1].freshId
      && forall j :: 1 <= j < |r.index| ==> r.index[j] == p.index[j - 1]
  {
    SaveIndexStep(cfg, SaveAll(cfg, s, reqs[..|reqs| - 1]), reqs[|reqs| - 1]);
  }

  /** Pushing the latest id in front of the newest-first list of the earlier ones gives that of all. */
  lemma HoldsNewestStep(reqs: seq<SaveRequest>, tail: seq<string>, cap: int, before: seq<string>, after: seq<string>)
    requires |reqs| > 0 && cap >= 1
    requires HoldsNewest(before, reqs[..|reqs| - 1], tail, cap)
    requires |after| == Min(|before| + 1, cap)
    requires after[0] == reqs[|reqs| - 1].freshId
    requires forall j :: 1 <= j < |after| ==> after[j] == before[j - 1]
    ensures HoldsNewest(after, reqs, tail, cap)
  {
    var n := |reqs|;
    forall j | 0 <= j < |after|
      ensures after[j] == Slot(reqs, tail, j)
    {
      if j > 0 {
        assert after[j] == Slot(reqs[..n - 1], tail, j - 1);
      }
    }
  }

  lemma AllAcceptedPrefix(cfg: Settings, reqs: seq<SaveRequest>, k: nat)
    requires AllAccepted(cfg, reqs) && k <= |reqs|
    ensures AllAccepted(cfg, reqs[..k])
  {
    forall i | 0 <= i < k ensures Accepted(cfg, reqs[..k][i]) {
      assert reqs[..k][i] == reqs[i];
    }
  }

  /**
   * After accepted saves the list holds the new ids, latest first, followed
   * by the old list, cut to capacity; the counter stays equal to its length.
   */
  lemma {:induction false} SaveAllKeepsNewest(cfg: Settings, s: Store<Blob>, reqs: seq<SaveRequest>)
    requires Bounded(s, cfg.logNum)
    requires AllAccepted(cfg, reqs)
    ensures Bounded(SaveAll(cfg, s, reqs), cfg.logNum)
    ensures HoldsNewest(SaveAll(cfg, s, reqs).index, reqs, s.index, cfg.logNum)
    decreases |reqs|
  {
    if |reqs| > 0 {
      var init := reqs[..|reqs| - 1];
      AllAcceptedPrefix(cfg, reqs, |reqs| - 1);
      SaveAllKeepsNewest(cfg, s, init);
      SaveAllStep(cfg, s, reqs);
      HoldsNewestStep(reqs, s.index, cfg.logNum, SaveAll(cfg, s, init).index, SaveAll(cfg, s, reqs).index);
    }
  }

  /** An empty store: no keys, no run ids, a zero count. */
  function EmptyStore(): (r: Store<Blob>)
    ensures |r.index| == 0 && r.counter == 0
  {
    Store(map[], [], 0)
  }

  /**
   * Once more than `log_num` runs with distinct ids have been accepted into an
   * empty store, the oldest run is no longer listed, and the newest `log_num` are.
   */
  lemma OldestEvicted(cfg: Settings, reqs: seq<SaveRequest>)
    requires 1 <= cfg.logNum < |reqs|
    requires AllAccepted(cfg, reqs)
    requires forall i, j :: 0 <= i < j < |reqs| ==> reqs[i].freshId != reqs[j].freshId
    ensures var r := SaveAll(cfg, EmptyStore(), reqs);
      && |r.index| == cfg.logNum
      && reqs[0].freshId !in r.index
      && forall j :: |reqs| - cfg.logNum <= j < |reqs| ==> reqs[j].freshId in r.index
  {
    SaveAllKeepsNewest(cfg, EmptyStore(), reqs);
    NewestOverEmpty(SaveAll(cfg, EmptyStore(), reqs).index, reqs, cfg.logNum);
  }

  /** The newest `cap` of more than `cap` distinct ids, over an empty list, leave out the oldest. */
  lemma NewestOverEmpty(index: seq<string>, reqs: seq<SaveRequest>, cap: int)
    requires 1 <= cap < |reqs|
    requires HoldsNewest(index, reqs, [], cap)
    requires forall i, j :: 0 <= i < j < |reqs| ==> reqs[i].freshId != reqs[j].freshId
    ensures |index| == cap
    ensures reqs[0].freshId !in index
    ensures forall j :: |reqs| - cap <= j < |reqs| ==> reqs[j].freshId in index
  {
    var n := |reqs|;
    forall k | 0 <= k < |index|
      ensures index[k] != reqs[0].freshId
    {
      assert index[k] == reqs[n - 1 - k].freshId;
    }
    forall j | n - cap <= j < n
      ensures reqs[j].freshId in index
    {
      assert index[n - 1 - j] == Slot(reqs, [], n - 1 - j);
    }
  }
}

=== FILE: rounding.dfy ===
/**
 * Exact rounding of a quotient to the nearest integer, a tie going away
 * from zero (the behaviour of PHP's `round()` on exact values).
 *
 * A value rounded to four decimal places is represented as the integer
 * number of ten-thousandths, so `round(n / d, 4)` is `RoundDiv(n * 10000, d)`.
 */
module Rounding {

  function Abs(x: int): nat
  {
    if x < 0 then -x else x
  }

  /** `r` is the integer nearest to n/d; on a tie it is the one farther from zero. */
  predicate NearestAwayFromZero(n: int, d: int, r: int)
    requires d > 0
  {
    && 2 * Abs(r * d - n) <= d
    && (2 * Abs(r * d - n) == d ==> Abs(r * d) > Abs(n))
  }

  /** n/d rounded half away from zero. */
  function RoundDiv(n: int, d: int): (r: int)
    requires d > 0
    ensures NearestAwayFromZero(n, d, r)
    ensures n >= 0 ==> r >= 0
    ensures n <= 0 ==> r <= 0
  {
    if n >= 0 then
      RoundNonNegative(n, d);
      (2 * n + d) / (2 * d)
    else
      RoundNegative(n, d);
      -((2 * -n + d) / (2 * d))
  }

  lemma RoundNonNegative(n: int, d: int)
    requires n >= 0 && d > 0
    ensures (2 * n + d) / (2 * d) >= 0
    ensures NearestAwayFromZero(n, d, (2 * n + d) / (2 * d))
  {
    var q := (2 * n + d) / (2 * d);
    var m := (2 * n + d) % (2 * d);
    assert q * (2 * d) + m == 2 * n + d;
    assert 0 <= m < 2 * d;
    assert q * (2 * d) == 2 * (q * d);
    assert 2 * (q * d - n) == d - m;
    MulSign(q, d);
  }

  lemma RoundNegative(n: int, d: int)
    requires n < 0 && d > 0
    ensures (2 * -n + d) / (2 * d) >= 0
    ensures NearestAwayFromZero(n, d, -((2 * -n + d) / (2 * d)))
  {
    RoundNonNegative(-n, d);
    var q := (2 * -n + d) / (2 * d);
    assert (-q) * d == -(q * d);
  }

  /** Multiplying by a positive d keeps the sign, and a nonzero factor moves at least d from zero. */
  lemma MulSign(k: int, d: int)
    requires d > 0
    ensures k >= 0 ==> k * d >= 0
    ensures k >= 1 ==> k * d >= d
    ensures k <= -1 ==> k * d <= -d
    decreases Abs(k)
  {
    if k >= 1 {
      assert k * d == d + (k - 1) * d;
      MulSign(k - 1, d);
    } else if k <= -1 {
      assert k * d == -d + (k + 1) * d;
      MulSign(k + 1, d);
    }
  }

  /**
   * The nearest multiple r*d lies in a half-open window of width d around n,
   * closed on the side away from zero.
   */
  lemma Window(n: int, d: int, r: int)
    requires d > 0
    requires NearestAwayFromZero(n, d, r)
    ensures n >= 0 ==> -d < 2 * (r * d - n) <= d
    ensures n < 0 ==> -d <= 2 * (r * d - n) < d
  {
    MulSign(r, d);
  }

  /** Two multiples of d less than d apart are the same multiple. */
  lemma SameMultiple(a: int, b: int, d: int)
    requires d > 0
    requires -d < a * d - b * d < d
    ensures a == b
  {
    assert (a - b) * d == a * d - b * d;
    MulSign(a - b, d);
  }

  /**
   * The rounding is uniquely determined: any integer nearest to n/d with
   * ties broken away from zero is RoundDiv(n, d).
   */
  lemma {:induction false} RoundDivUnique(n: int, d: int, r: int)
    requires d > 0
    requires NearestAwayFromZero(n, d, r)
    ensures r == RoundDiv(n, d)
  {
    var q := RoundDiv(n, d);
    Window(n, d, r);
    Window(n, d, q);
    SameMultiple(r, q, d);
  }

  /** Rounding keeps the sign of the quotient's numerator: -n rounds to -r. */
  lemma {:induction false} RoundDivOdd(n: int, d: int)
    requires d > 0
    ensures RoundDiv(-n, d) == -RoundDiv(n, d)
  {
    var r := RoundDiv(n, d);
    assert (-r) * d == -(r * d);
    assert NearestAwayFromZero(-n, d, -r);
    RoundDivUnique(-n, d, -r);
  }
}

=== FILE: wrappers.dfy ===
/** Failure-carrying datatypes shared by the model. */
module Wrappers {

  /** A value that may be missing: a Redis reply of nil, an unset request field. */
  datatype Option<+T> = None | Some(value: T)

  /** Either a computed value or the error that stopped the computation. */
  datatype Result<+T, +E> = Success(value: T) | Failure(error: E)
}

=== FILE: xhprof.dfy ===
/**
 * The entry class `Xhprof`: turning the caller's option array into the
 * configuration the store and the report read (`_defineConfig`), and the
 * pruning of report parameters that still hold their defaults (`index()`).
 */
module Xhprof {
  import opened Wrappers
  import opened Php

  // ---------------------------------------------------------------- configuration

  /** The configuration constants X_UI_DIR_URL_PATH, X_REDIS_HOST, ... X_IGNORE_URL_ARR, as PHP values. */
  datatype Config = Config(
    uiDirUrlPath: PhpValue,
    redisHost: PhpValue,
    redisPort: PhpValue,
    redisPwd: PhpValue,
    redisDb: PhpValue,
    keyPrefix: PhpValue,
    timeLimit: PhpValue,
    logNum: PhpValue,
    viewWtred: PhpValue,
    ignoreUrlArr: PhpValue)

  /** `_defineConfig` stops with an error when no UI path is configured. */
  datatype ConfigError = MissingUiDirUrlPath

  /**
   * The keys of the option array that `_defineConfig` reads, spelled
   * `ui_dir_url_path`, `redis_host`, `redis_port`, `redis_pwd`, `redis_db`,
   * `key_prefix`, `time_limit`, `log_num`, `view_wtred` and `ignore_url_arr`.
   * No other key of the array affects the configuration.
   */
  datatype OptionKey =
    | UiDirUrlPath | RedisHost | RedisPort | RedisPwd | RedisDb | KeyPrefix
    | TimeLimit | LogNum | ViewWtred | IgnoreUrlArr

  type Options = map<OptionKey, PhpValue>

  /** `isset($config[k])`. */
  predicate IsSet(opts: Options, k: OptionKey)
  {
    k in opts && opts[k] != Null
  }

  /** `$config[k] ?? d`. */
  function Coalesce(opts: Options, k: OptionKey, d: PhpValue): (r: PhpValue)
    ensures d != Null ==> r != Null
  {
    if IsSet(opts, k) then opts[k] else d
  }

  /** Every defaulted option with the value it takes when the caller leaves it unset. */
  const Defaults: seq<(OptionKey, PhpValue)> := [
    (RedisHost, Str("localhost")),
    (RedisPort, Int(6379)),
    (RedisPwd, Str("")),
    (RedisDb, Int(0)),
    (KeyPrefix, Str("xhprof")),
    (TimeLimit, Int(0)),
    (LogNum, Int(1000)),
    (ViewWtred, Int(3)),
    (IgnoreUrlArr, Arr([]))
  ]

  /** The configuration entry an option sets. */
  function Field(c: Config, k: OptionKey): PhpValue
  {
    match k
    case UiDirUrlPath => c.uiDirUrlPath
    case RedisHost => c.redisHost
    case RedisPort => c.redisPort
    case RedisPwd => c.redisPwd
    case RedisDb => c.redisDb
    case KeyPrefix => c.keyPrefix
    case TimeLimit => c.timeLimit
    case LogNum => c.logNum
    case ViewWtred => c.viewWtred
    case IgnoreUrlArr => c.ignoreUrlArr
  }

  /**
   * `_defineConfig`: the UI path must be set and non-empty; every other
   * option keeps the caller's value when it is set (even a falsy one such as
   * "" or 0) and takes its default when it is missing or null.
   */
  function DefineConfig(opts: Options): (r: Result<Config, ConfigError>)
    ensures r.Failure? <==> !IsSet(opts, UiDirUrlPath) || Empty(opts[UiDirUrlPath])
    ensures r.Failure? ==> r.error == MissingUiDirUrlPath
    ensures r.Success? ==> r.value.uiDirUrlPath == opts[UiDirUrlPath]
  {
    if !IsSet(opts, UiDirUrlPath) || Empty(opts[UiDirUrlPath]) then
      Failure(MissingUiDirUrlPath)
    else
      Success(Config(
        opts[UiDirUrlPath],
        Coalesce(opts, RedisHost, Str("localhost")),
        Coalesce(opts, RedisPort, Int(6379)),
        Coalesce(opts, RedisPwd, Str("")),
        Coalesce(opts, RedisDb, Int(0)),
        Coalesce(opts, KeyPrefix, Str("xhprof")),
        Coalesce(opts, TimeLimit, Int(0)),
        Coalesce(opts, LogNum, Int(1000)),
        Coalesce(opts, ViewWtred, Int(3)),
        Coalesce(opts, IgnoreUrlArr, Arr([]))))
  }

  /**
   * The defaulting rule of `_defineConfig`, option by option: a set option
   * (even a falsy one such as "" or 0) keeps the caller's value, a missing or
   * null one takes its default.
   */
  lemma DefineConfigDefaults(opts: Options)
    requires DefineConfig(opts).Success?
    ensures forall i :: 0 <= i < |Defaults| && IsSet(opts, Defaults[i].0) ==>
              Field(DefineConfig(opts).value, Defaults[i].0) == opts[Defaults[i].0]
    ensures forall i :: 0 <= i < |Defaults| && !IsSet(opts, Defaults[i].0) ==>
              Field(DefineConfig(opts).value, Defaults[i].0) == Defaults[i].1
  {
    var c := DefineConfig(opts).value;
    forall i | 0 <= i < |Defaults|
      ensures Field(c, Defaults[i].0) == Coalesce(opts, Defaults[i].0, Defaults[i].1)
    {
    }
  }

  /** The ten keys `_defineConfig` reads. */
  const KnownKeys: set<OptionKey> := {UiDirUrlPath, RedisHost, RedisPort, RedisPwd, RedisDb, KeyPrefix,
                                      TimeLimit, LogNum, ViewWtred, IgnoreUrlArr}

  /** The option array that spells a configuration out in full. */
  function ToOptions(c: Config): (o: Options)
    ensures o.Keys == KnownKeys
    ensures forall k :: k in o ==> o[k] == Field(c, k)
  {
    map k | k in KnownKeys :: Field(c, k)
  }

  /** With no options beyond the UI path, every entry takes its default. */
  lemma DefaultConfig(path: PhpValue)
    requires !Empty(path)
    ensures DefineConfig(map[UiDirUrlPath := path])
         == Success(Config(path, Str("localhost"), Int(6379), Str(""), Int(0),
                           Str("xhprof"), Int(0), Int(1000), Int(3), Arr([])))
  {
  }

  /** Falsy values the caller supplies survive; only the UI path goes through `empty()`. */
  lemma FalsyOptionsKept(path: PhpValue)
    requires !Empty(path)
    ensures var r := DefineConfig(map[UiDirUrlPath := path, KeyPrefix := Str(""),
                                      LogNum := Int(0), RedisHost := Str("0")]);
      && r.Success?
      && r.value.keyPrefix == Str("") && r.value.logNum == Int(0) && r.value.redisHost == Str("0")
    ensures DefineConfig(map[UiDirUrlPath := Str("0")]).Failure?
    ensures DefineConfig(map[UiDirUrlPath := Null]).Failure?
  {
  }

  /** Defining a configuration from its own full option array gives it back: the defaulting is idempotent. */
  lemma ConfigRoundTrip(opts: Options)
    requires DefineConfig(opts).Success?
    ensures DefineConfig(ToOptions(DefineConfig(opts).value)) == DefineConfig(opts)
  {
    var c := DefineConfig(opts).value;
    var o := ToOptions(c);
    assert o[UiDirUrlPath] == c.uiDirUrlPath;
  }

  // ---------------------------------------------------------------- report parameters

  /** A report parameter `index()` declares, with its default. */
  datatype ParamDecl = ParamDecl(name: string, default: PhpValue)

  /** The parameters `index()` declares, with their defaults. */
  const ReportParams: seq<ParamDecl> := [
    ParamDecl("run", Str("")),
    ParamDecl("wts", Str("")),
    ParamDecl("symbol", Str("")),
    ParamDecl("sort", Str("wt")),
    ParamDecl("run1", Str("")),
    ParamDecl("run2", Str("")),
    ParamDecl("source", Str("xhprof")),
    ParamDecl("all", Int(0))
  ]

  /** Every declared parameter has a current value. */
  predicate AllValued(decls: seq<ParamDecl>, values: map<string, PhpValue>)
  {
    forall i :: 0 <= i < |decls| ==> decls[i].name in values
  }

  /**
   * The declared parameters whose value is not loosely equal (PHP `==`) to
   * the default, in declaration order, with their values.
   */
  function Pruned(decls: seq<ParamDecl>, values: map<string, PhpValue>): seq<(string, PhpValue)>
    requires AllValued(decls, values)
    decreases |decls|
  {
    if |decls| == 0 then []
    else
      var d := decls[|decls| - 1];
      var front := Pruned(decls[..|decls| - 1], values);
      if LooseEq(values[d.name], d.default) then front else front + [(d.name, values[d.name])]
  }

  /**
   * The loop of `index()` that replaces each declaration by the parameter's
   * current value and drops the parameters left at their default.
   */
  method PruneDefaults(decls: seq<ParamDecl>, values: map<string, PhpValue>) returns (kept: seq<(string, PhpValue)>)
    requires AllValued(decls, values)
    ensures kept == Pruned(decls, values)
  {
    kept := [];
    var i := 0;
    while i < |decls|
      invariant 0 <= i <= |decls|
      invariant kept == Pruned(decls[..i], values)
    {
      var d := decls[i];
      assert decls[..i + 1][..i] == decls[..i];
      if !LooseEq(values[d.name], d.default) {
        kept := kept + [(d.name, values[d.name])];
      }
      i := i + 1;
    }
    assert decls[..|decls|] == decls;
  }

  /**
   * A parameter survives pruning exactly when it is declared and its value
   * is not loosely equal to its declared default, and it survives with its
   * current value.
   */
  lemma {:induction false} PrunedMembership(decls: seq<ParamDecl>, values: map<string, PhpValue>, name: string, v: PhpValue)
    requires AllValued(decls, values)
    ensures (name, v) in Pruned(decls, values) <==>
              exists i :: 0 <= i < |decls| && decls[i].name == name && v == values[name] && !LooseEq(v, decls[i].default)
    decreases |decls|
  {
    if |decls| > 0 {
      var n := |decls|;
      var init := decls[..n - 1];
      assert AllValued(init, values) by {
        forall i | 0 <= i < |init| ensures init[i].name in values {
          assert init[i] == decls[i];
        }
      }
      PrunedMembership(init, values, name, v);
      if exists i :: 0 <= i < |init| && init[i].name == name && v == values[name] && !LooseEq(v, init[i].default) {
        var i :| 0 <= i < |init| && init[i].name == name && v == values[name] && !LooseEq(v, init[i].default);
        assert decls[i] == init[i];
      }
      if exists i :: 0 <= i < n && decls[i].name == name && v == values[name] && !LooseEq(v, decls[i].default) {
        var i :| 0 <= i < n && decls[i].name == name && v == values[name] && !LooseEq(v, decls[i].default);
        if i < n - 1 {
          assert init[i] == decls[i];
        }
      }
    }
  }

  /** A request whose every parameter compares equal to its default keeps none of them. */
  lemma PrunedAllDefault(decls: seq<ParamDecl>, values: map<string, PhpValue>)
    requires AllValued(decls, values)
    requires forall i :: 0 <= i < |decls| ==> LooseEq(values[decls[i].name], decls[i].default)
    ensures Pruned(decls, values) == []
  {
    var kept := Pruned(decls, values);
    if |kept| > 0 {
      PrunedMembership(decls, values, kept[0].0, kept[0].1);
      assert false;
    }
  }

  /** Only the last report parameter is named `all`: no other name starts with an `a`. */
  lemma AllIsLast(i: int)
    requires 0 <= i < |ReportParams| && ReportParams[i].name == "all"
    ensures i == 7 && ReportParams[i].default == Int(0)
  {
    if i < 7 {
      assert false;
    }
  }

  /**
   * An `all` parameter that arrives as the digit string "0" or as null
   * compares equal to its default 0 and is dropped, like an integer 0.
   */
  lemma AllZeroPruned(values: map<string, PhpValue>, v: PhpValue)
    requires AllValued(ReportParams, values)
    requires "all" in values && values["all"] in {Str("0"), Null, Int(0)}
    ensures ("all", v) !in Pruned(ReportParams, values)
  {
    if ("all", v) in Pruned(ReportParams, values) {
      PrunedMembership(ReportParams, values, "all", v);
      var i :| 0 <= i < |ReportParams| && ReportParams[i].name == "all"
               && v == values["all"] && !LooseEq(v, ReportParams[i].default);
      AllIsLast(i);
      LooseEqExamples();
      assert false;
    }
  }
}

=== FILE: xhprof_runs.dfy ===
/**
 * The Redis-backed run store of `XHProfRuns_Default`: saving a profiled run
 * with bounded FIFO retention, fetching a run back, listing the retained
 * runs, and the run file-name scheme.
 */
module XHProfRuns {
  import opened Wrappers
  import opened Php
  import opened Rounding
  import opened Redis

  /** The file-name suffix of a saved run. */
  const Suffix: string := "xhprof"

  /** The call-graph edge that carries the whole request's totals. */
  const RootSymbol: string := "main()"

  const MicrosPerSecond: int := 1000000
  const BytesPerMegabyte: int := 1048576
  /** Summary figures keep four decimal places: they are stored in ten-thousandths. */
  const Scale: int := 10000

  /** The metrics of one call-graph edge: wall time in microseconds and memory delta in bytes. */
  datatype Metrics = Metrics(wt: int, mu: int)

  /** A profiled run: call-graph edge label to metrics. */
  type Payload = map<string, Metrics>

  /**
   * What the request offers when the summary is recorded (`$_SERVER`, the
   * client address, the clock), and whether `json_encode` can encode the
   * summary row: it fails when a string of the row, such as a raw request
   * URI, is not valid UTF-8.
   */
  datatype RequestContext = RequestContext(
    serverName: string,
    requestUri: string,
    requestMethod: Option<string>,
    ip: string,
    now: int,
    encodable: bool)

  /** The summary row of a run; `wt` (seconds) and `mu` (megabytes) are in ten-thousandths. */
  datatype SummaryRow = SummaryRow(
    requestUri: string,
    requestMethod: string,
    wt: int,
    mu: int,
    ip: string,
    createTime: int)

  /**
   * A value stored under a key. Runs are written as the JSON encoding of
   * their summary and the PHP serialization of their payload; anything else
   * found in Redis is foreign text that may or may not decode to a JSON array.
   */
  datatype Blob =
    | SummaryJson(row: SummaryRow)
    | SerializedRun(payload: Payload)
    | Foreign(text: string, decodesToArray: bool)

  /** The configuration the store reads: X_KEY_PREFIX, X_TIME_LIMIT (seconds) and X_LOG_NUM. */
  datatype Settings = Settings(prefix: string, timeLimit: real, logNum: int)

  /**
   * One call of `save_run`: the profiled data, the verdict of the request's
   * ignore-list guard `isIgnore()` (true lets the run through), the request
   * context, and the id `uniqid()` would return.
   */
  datatype SaveRequest = SaveRequest(
    payload: Payload,
    passesIgnore: bool,
    ctx: RequestContext,
    freshId: string)

  /** The store after `save_run`, and its return value: the new run id, or None for `false`. */
  datatype SaveResult = SaveResult(store: Store<Blob>, runId: Option<string>)

  /** What `get_run` yields: the run description and the unserialized payload, if any. */
  datatype FetchedRun = FetchedRun(desc: string, data: Option<Payload>)

  // ---------------------------------------------------------------- file names

  predicate EndsWith(s: string, suffix: string)
  {
    |suffix| <= |s| && s[|s| - |suffix|..] == suffix
  }

  /** `file_name`: `run.type.xhprof`, placed under the directory unless it is empty. */
  function FileName(dir: string, runId: string, runType: string): (r: string)
    ensures EndsWith(r, "." + runType + "." + Suffix)
    ensures EmptyString(dir) ==> |r| == |runId| + |runType| + 8 && r[..|runId|] == runId
    ensures !EmptyString(dir) ==>
      && |r| == |dir| + 1 + |runId| + |runType| + 8
      && r[..|dir| + 1] == dir + "/"
      && r[|dir| + 1..|dir| + 1 + |runId|] == runId
  {
    var file := runId + "." + runType + "." + Suffix;
    if !EmptyString(dir) then dir + "/" + file else file
  }

  /** Recovers the run id from a file name built for the given directory and type. */
  function RunIdOfFileName(dir: string, runType: string, name: string): (r: Option<string>)
    ensures r.Some? ==> |r.value| <= |name|
  {
    var head := if EmptyString(dir) then "" else dir + "/";
    var tail := "." + runType + "." + Suffix;
    if |head| + |tail| <= |name| && name[..|head|] == head && name[|name| - |tail|..] == tail
    then Some(name[|head|..|name| - |tail|])
    else None
  }

  /** Every file name determines its run id: the name scheme is invertible. */
  lemma FileNameRoundTrip(dir: string, runId: string, runType: string)
    ensures RunIdOfFileName(dir, runType, FileName(dir, runId, runType)) == Some(runId)
  {
    var name := FileName(dir, runId, runType);
    var head := if EmptyString(dir) then "" else dir + "/";
    var tail := "." + runType + "." + Suffix;
    assert name == head + runId + tail;
    assert name[..|head|] == head;
    assert name[|name| - |tail|..] == tail;
    assert name[|head|..|name| - |tail|] == runId;
  }

  /** Distinct runs of one type never share a file. */
  lemma FileNameInjective(dir: string, a: string, b: string, runType: string)
    requires FileName(dir, a, runType) == FileName(dir, b, runType)
    ensures a == b
  {
    FileNameRoundTrip(dir, a, runType);
    FileNameRoundTrip(dir, b, runType);
  }

  // ---------------------------------------------------------------- keys

  /** The key of a run's summary row: the prefix, the `request_log` namespace, the run id. */
  function RequestKey(prefix: string, runId: string): (k: string)
    ensures |k| == |prefix| + 13 + |runId|
    ensures k[..|prefix|] == prefix && k[|k| - |runId|..] == runId
    ensures k[|prefix|..|prefix| + 13] == ":request_log:"
  {
    prefix + ":request_log:" + runId
  }

  /** The key of a run's serialized payload: the prefix, the `xhprof_log` namespace, the run id. */
  function PayloadKey(prefix: string, runId: string): (k: string)
    ensures |k| == |prefix| + 12 + |runId|
    ensures k[..|prefix|] == prefix && k[|k| - |runId|..] == runId
    ensures k[|prefix|..|prefix| + 12] == ":xhprof_log:"
  {
    prefix + ":xhprof_log:" + runId
  }

  /** The two key namespaces never collide, and each determines its run id. */
  lemma KeysDistinct(prefix: string, a: string, b: string)
    ensures RequestKey(prefix, a) != PayloadKey(prefix, b)
    ensures RequestKey(prefix, a) == RequestKey(prefix, b) ==> a == b
    ensures PayloadKey(prefix, a) == PayloadKey(prefix, b) ==> a == b
  {
    assert RequestKey(prefix, a)[|prefix| + 1] == 'r';
    assert PayloadKey(prefix, b)[|prefix| + 1] == 'x';
    assert RequestKey(prefix, a)[|prefix| + 13..] == a;
    assert RequestKey(prefix, b)[|prefix| + 13..] == b;
    assert PayloadKey(prefix, a)[|prefix| + 12..] == a;
    assert PayloadKey(prefix, b)[|prefix| + 12..] == b;
  }

  // ---------------------------------------------------------------- saving

  /**
   * The wall-time filter: with a positive limit, a run whose root wall time
   * is below the limit (or which has no root entry) is not kept.
   */
  predicate BelowTimeLimit(cfg: Settings, p: Payload)
    ensures cfg.timeLimit <= 0.0 ==> !BelowTimeLimit(cfg, p)
    ensures RootSymbol in p && (p[RootSymbol].wt as real) >= cfg.timeLimit * 1000000.0 ==> !BelowTimeLimit(cfg, p)
  {
    && cfg.timeLimit > 0.0
    && (RootSymbol !in p || (p[RootSymbol].wt as real) < cfg.timeLimit * 1000000.0)
  }

  /** Whether `save_run` keeps the run at all. */
  predicate Accepted(cfg: Settings, req: SaveRequest)
    ensures Accepted(cfg, req) ==> req.passesIgnore
    ensures cfg.timeLimit <= 0.0 ==> (Accepted(cfg, req) <==> req.passesIgnore)
  {
    !BelowTimeLimit(cfg, req.payload) && req.passesIgnore
  }

  /** A run the time filter keeps keeps being kept when its root wall time grows. */
  lemma TimeLimitMonotone(cfg: Settings, p: Payload, wt: int)
    requires RootSymbol in p && !BelowTimeLimit(cfg, p)
    requires wt >= p[RootSymbol].wt
    ensures !BelowTimeLimit(cfg, p[RootSymbol := p[RootSymbol].(wt := wt)])
  {
  }

  /** The root entry exists and has a positive wall time. */
  predicate RootTimed(p: Payload)
  {
    RootSymbol in p && p[RootSymbol].wt > 0
  }

  /** The summary row recorded beside a saved run. */
  function Summarize(p: Payload, ctx: RequestContext): (row: SummaryRow)
    ensures row.requestUri == ctx.serverName + ctx.requestUri
    ensures ctx.requestMethod.Some? ==> row.requestMethod == ctx.requestMethod.value
    ensures ctx.requestMethod.None? ==> row.requestMethod == ""
    ensures row.ip == ctx.ip && row.createTime == ctx.now
    ensures !RootTimed(p) ==> row.wt == 0 && row.mu == 0
    ensures RootTimed(p) ==>
      && NearestAwayFromZero(p[RootSymbol].wt * Scale, MicrosPerSecond, row.wt)
      && NearestAwayFromZero(p[RootSymbol].mu * Scale, BytesPerMegabyte, row.mu)
    ensures row.wt >= 0
  {
    var wt := if RootTimed(p) then RoundDiv(p[RootSymbol].wt * Scale, MicrosPerSecond) else 0;
    var mu := if RootTimed(p) then RoundDiv(p[RootSymbol].mu * Scale, BytesPerMegabyte) else 0;
    var requestMethod := if ctx.requestMethod.Some? then ctx.requestMethod.value else "";
    SummaryRow(ctx.serverName + ctx.requestUri, requestMethod, wt, mu, ctx.ip, ctx.now)
  }

  /** A 2.5-second request that allocated 2 MB is summarized as 2.5 s and 2.0 MB; one that freed 1 MB as -1.0 MB. */
  lemma SummaryExamples(ctx: RequestContext)
    ensures var row := Summarize(map[RootSymbol := Metrics(2500000, 2097152)], ctx);
      row.wt == 25000 && row.mu == 20000
    ensures var row := Summarize(map[RootSymbol := Metrics(123456, -1048576)], ctx);
      row.wt == 1235 && row.mu == -10000
    ensures var row := Summarize(map[RootSymbol := Metrics(0, 4096)], ctx);
      row.wt == 0 && row.mu == 0
  {
  }

  /**
   * The value `_saveToRedis` writes under the summary key: the JSON encoding
   * of the summary row, or, when `json_encode` fails and returns false, the
   * empty string that false is stored as.
   */
  function SummaryBlob(p: Payload, ctx: RequestContext): (b: Blob)
    ensures ctx.encodable ==> b == SummaryJson(Summarize(p, ctx))
    ensures !ctx.encodable ==> !Truthy(b) && !DecodesToArray(b)
  {
    if ctx.encodable then SummaryJson(Summarize(p, ctx)) else Foreign("", false)
  }

  /** With a five-second limit a three-second run is dropped and a six-second run kept. */
  lemma TimeLimitExamples(prefix: string, logNum: int)
    ensures BelowTimeLimit(Settings(prefix, 5.0, logNum), map[RootSymbol := Metrics(3000000, 0)])
    ensures !BelowTimeLimit(Settings(prefix, 5.0, logNum), map[RootSymbol := Metrics(6000000, 0)])
    ensures !BelowTimeLimit(Settings(prefix, 0.0, logNum), map[])
  {
  }

  /**
   * `_checkLogNum`: count the incoming run; past capacity, drop the oldest
   * run id from the tail of the list together with its two keys, and take
   * it off the count again.
   */
  function CheckLogNum(cfg: Settings, s: Store<Blob>): (r: Store<Blob>)
    ensures s.counter + 1 <= cfg.logNum ==> r == s.(counter := s.counter + 1)
    ensures s.counter + 1 > cfg.logNum ==> r.counter == s.counter
    ensures s.counter + 1 > cfg.logNum && |s.index| > 0 ==>
      var victim := s.index[|s.index| - 1];
      && r.index == s.index[..|s.index| - 1]
      && r.kv.Keys == s.kv.Keys - {RequestKey(cfg.prefix, victim), PayloadKey(cfg.prefix, victim)}
    ensures s.counter + 1 > cfg.logNum && |s.index| == 0 ==>
      && r.index == []
      && r.kv.Keys == s.kv.Keys - {RequestKey(cfg.prefix, ""), PayloadKey(cfg.prefix, "")}
    ensures forall k :: k in r.kv ==> k in s.kv && r.kv[k] == s.kv[k]
  {
    var num := s.counter + 1;
    if num > cfg.logNum then
      var popped := RPop(s.(counter := num));
      // rpop on an empty list yields false, which concatenates as "".
      var victim := if popped.0.Some? then popped.0.value else "";
      var s1 := Del(Del(popped.1, RequestKey(cfg.prefix, victim)), PayloadKey(cfg.prefix, victim));
      s1.(counter := s1.counter - 1)
    else
      s.(counter := num)
  }

  /**
   * `_saveToRedis`: push the new id to the head of the list and write the
   * summary row and the payload under the run's two keys.
   */
  function SaveToRedis(cfg: Settings, s: Store<Blob>, req: SaveRequest): (r: Store<Blob>)
    ensures r.index == [req.freshId] + s.index
    ensures r.counter == s.counter
    ensures RequestKey(cfg.prefix, req.freshId) in r.kv
    ensures r.kv[RequestKey(cfg.prefix, req.freshId)] == SummaryBlob(req.payload, req.ctx)
    ensures PayloadKey(cfg.prefix, req.freshId) in r.kv
    ensures r.kv[PayloadKey(cfg.prefix, req.freshId)] == SerializedRun(req.payload)
    ensures r.kv.Keys == s.kv.Keys + {RequestKey(cfg.prefix, req.freshId), PayloadKey(cfg.prefix, req.freshId)}
    ensures forall k :: k in s.kv && k != RequestKey(cfg.prefix, req.freshId) && k != PayloadKey(cfg.prefix, req.freshId)
                        ==> r.kv[k] == s.kv[k]
  {
    KeysDistinct(cfg.prefix, req.freshId, req.freshId);
    var s1 := LPush(s, req.freshId);
    var s2 := Set(s1, RequestKey(cfg.prefix, req.freshId), SummaryBlob(req.payload, req.ctx));
    Set(s2, PayloadKey(cfg.prefix, req.freshId), SerializedRun(req.payload))
  }

  /** `save_run`: filter the run, then enforce capacity, then store it under a fresh id. */
  function SaveRun(cfg: Settings, s: Store<Blob>, req: SaveRequest): (r: SaveResult)
    ensures r.runId.None? <==> !Accepted(cfg, req)
    ensures r.runId.None? ==> r.store == s
    ensures r.runId.Some? ==> r.runId.value == req.freshId
    ensures r.runId.Some? ==> |r.store.index| > 0 && r.store.index[0] == req.freshId
  {
    if BelowTimeLimit(cfg, req.payload) then SaveResult(s, None)
    else if !req.passesIgnore then SaveResult(s, None)
    else
      var s1 := CheckLogNum(cfg, s);
      SaveResult(SaveToRedis(cfg, s1, req), Some(req.freshId))
  }

  // ---------------------------------------------------------------- reading

  /** `get_run`: the description of the run type and the payload stored under the run's key. */
  function GetRun(prefix: string, s: Store<Blob>, runId: string, runType: string): (r: FetchedRun)
    ensures r.desc == "XHProf Run (Namespace=" + runType + ")"
    ensures r.data.Some? <==> PayloadKey(prefix, runId) in s.kv && s.kv[PayloadKey(prefix, runId)].SerializedRun?
    ensures r.data.Some? ==> s.kv[PayloadKey(prefix, runId)] == SerializedRun(r.data.value)
  {
    var res := Get(s, PayloadKey(prefix, runId));
    var data := if res.Some? && res.value.SerializedRun? then Some(res.value.payload) else None;
    FetchedRun("XHProf Run (Namespace=" + runType + ")", data)
  }

  /** PHP truthiness of a stored string: "" and "0" are falsy. */
  predicate Truthy(b: Blob)
  {
    match b
    case Foreign(text, _) => !EmptyString(text)
    case _ => true
  }

  /** Whether `json_decode($res, true)` yields an array; a PHP serialization is not JSON. */
  predicate DecodesToArray(b: Blob)
  {
    match b
    case SummaryJson(_) => true
    case SerializedRun(_) => false
    case Foreign(_, decodes) => decodes
  }

  /** A run id the listing shows: its summary is present, truthy and decodes to an array. */
  predicate Listable(kv: map<string, Blob>, prefix: string, runId: string)
  {
    var k := RequestKey(prefix, runId);
    k in kv && Truthy(kv[k]) && DecodesToArray(kv[k])
  }

  /** `a` is `b` with some elements left out, order kept. */
  predicate IsSubsequence(a: seq<string>, b: seq<string>)
    decreases |b|
  {
    || |a| == 0
    || (&& |b| > 0
        && ((a[0] == b[0] && IsSubsequence(a[1..], b[1..])) || IsSubsequence(a, b[1..])))
  }

  /** A subsequence of a prefix is a subsequence of the whole sequence. */
  lemma {:induction false} SubsequenceOfPrefix(a: seq<string>, p: seq<string>, b: seq<string>)
    requires IsSubsequence(a, p)
    requires |p| <= |b| && b[..|p|] == p
    ensures IsSubsequence(a, b)
    decreases |p|
  {
    if |a| == 0 {
    } else {
      assert b[0] == p[0];
      assert b[1..][..|p| - 1] == p[1..];
      if a[0] == p[0] && IsSubsequence(a[1..], p[1..]) {
        SubsequenceOfPrefix(a[1..], p[1..], b[1..]);
      } else {
        SubsequenceOfPrefix(a, p[1..], b[1..]);
      }
    }
  }

  /** The loop of `list_runs`: keep, in order, the ids whose summary is listable. */
  function KeepListable(kv: map<string, Blob>, prefix: string, ids: seq<string>): (r: seq<string>)
    ensures IsSubsequence(r, ids)
    ensures forall id :: multiset(r)[id] == if Listable(kv, prefix, id) then multiset(ids)[id] else 0
    ensures forall id :: id in r <==> id in ids && Listable(kv, prefix, id)
    ensures (forall id :: id in ids ==> Listable(kv, prefix, id)) ==> r == ids
    ensures |ids| > 0 && Listable(kv, prefix, ids[0]) ==> |r| > 0 && r[0] == ids[0]
  {
    if |ids| == 0 then []
    else
      var rest := KeepListable(kv, prefix, ids[1..]);
      assert ids == [ids[0]] + ids[1..];
      assert multiset(ids) == multiset{ids[0]} + multiset(ids[1..]);
      if Listable(kv, prefix, ids[0]) then
        assert ([ids[0]] + rest)[1..] == rest;
        assert multiset([ids[0]] + rest) == multiset{ids[0]} + multiset(rest);
        [ids[0]] + rest
      else
        rest
  }

  /**
   * `list_runs` / `list_runs2` without the HTML: the ids of list positions
   * 0..log_num inclusive whose summary is listable, newest first, each as
   * often as the list holds it.
   */
  function ListRuns(cfg: Settings, s: Store<Blob>): (r: seq<string>)
    ensures IsSubsequence(r, LRangeFromHead(s.index, cfg.logNum))
    ensures IsSubsequence(r, s.index)
    ensures forall id :: multiset(r)[id] ==
              if Listable(s.kv, cfg.prefix, id) then multiset(LRangeFromHead(s.index, cfg.logNum))[id] else 0
    ensures forall id :: id in r <==> id in LRangeFromHead(s.index, cfg.logNum) && Listable(s.kv, cfg.prefix, id)
  {
    var window := LRangeFromHead(s.index, cfg.logNum);
    var r := KeepListable(s.kv, cfg.prefix, window);
    SubsequenceOfPrefix(r, window, s.index);
    r
  }

  // ---------------------------------------------------------------- invariants

  /** The retention invariant: the counter is the list length, which is within capacity. */
  predicate Bounded(s: Store<Blob>, logNum: int)
  {
    1 <= logNum && s.counter == |s.index| <= logNum
  }

  predicate Distinct(xs: seq<string>)
  {
    forall i, j :: 0 <= i < j < |xs| ==> xs[i] != xs[j]
  }

  /** Every run in the list has its summary key and its payload, and no run is in the list twice. */
  predicate Consistent(s: Store<Blob>, prefix: string)
  {
    && Distinct(s.index)
    && forall id :: id in s.index ==>
         && RequestKey(prefix, id) in s.kv
         && PayloadKey(prefix, id) in s.kv && s.kv[PayloadKey(prefix, id)].SerializedRun?
  }

  /** Every run in the list has a JSON-encoded summary row. */
  predicate SummariesEncoded(s: Store<Blob>, prefix: string)
  {
    forall id :: id in s.index ==> RequestKey(prefix, id) in s.kv && s.kv[RequestKey(prefix, id)].SummaryJson?
  }

  // ---------------------------------------------------------------- properties of one save

  /** An accepted save keeps the retention invariant; the count grows until it reaches capacity. */
  lemma SaveKeepsBounded(cfg: Settings, s: Store<Blob>, req: SaveRequest)
    requires Bounded(s, cfg.logNum) && Accepted(cfg, req)
    ensures Bounded(SaveRun(cfg, s, req).store, cfg.logNum)
    ensures SaveRun(cfg, s, req).store.counter == if s.counter < cfg.logNum then s.counter + 1 else cfg.logNum
  {
  }

  /**
   * Below capacity nothing is evicted: the new id goes in front of the
   * unchanged list, and only the new run's two keys are written.
   */
  lemma SaveBelowCapacity(cfg: Settings, s: Store<Blob>, req: SaveRequest)
    requires Bounded(s, cfg.logNum) && Accepted(cfg, req)
    requires s.counter < cfg.logNum
    ensures var r := SaveRun(cfg, s, req).store;
      && r.index == [req.freshId] + s.index
      && r.counter == s.counter + 1
      && forall k :: k != RequestKey(cfg.prefix, req.freshId) && k != PayloadKey(cfg.prefix, req.freshId) ==>
           && (k in r.kv <==> k in s.kv)
           && (k in r.kv ==> r.kv[k] == s.kv[k])
  {
  }

  /**
   * At capacity the eviction is strict FIFO: exactly the tail id leaves the
   * list, exactly its summary and payload keys are deleted, and every other
   * key but the new run's two is untouched.
   */
  lemma SaveEvictsOldest(cfg: Settings, s: Store<Blob>, req: SaveRequest)
    requires Bounded(s, cfg.logNum) && Accepted(cfg, req)
    requires s.counter == cfg.logNum
    requires req.freshId !in s.index
    ensures |s.index| > 0
    ensures var r := SaveRun(cfg, s, req).store;
      var victim := s.index[|s.index| - 1];
      && r.index == [req.freshId] + s.index[..|s.index| - 1]
      && r.counter == s.counter
      && RequestKey(cfg.prefix, victim) !in r.kv
      && PayloadKey(cfg.prefix, victim) !in r.kv
      && forall k :: && k != RequestKey(cfg.prefix, victim) && k != PayloadKey(cfg.prefix, victim)
                     && k != RequestKey(cfg.prefix, req.freshId) && k != PayloadKey(cfg.prefix, req.freshId) ==>
           && (k in r.kv <==> k in s.kv)
           && (k in r.kv ==> r.kv[k] == s.kv[k])
  {
    var victim := s.index[|s.index| - 1];
    assert victim != req.freshId;
    KeysDistinct(cfg.prefix, victim, req.freshId);
    KeysDistinct(cfg.prefix, req.freshId, victim);
  }

  /**
   * Saving then fetching: the run id `save_run` returns leads back to the
   * payload, and the summary key holds the derived summary row.
   */
  lemma SaveThenGet(cfg: Settings, s: Store<Blob>, req: SaveRequest, runType: string)
    requires Accepted(cfg, req)
    ensures var r := SaveRun(cfg, s, req);
      && r.runId == Some(req.freshId)
      && GetRun(cfg.prefix, r.store, req.freshId, runType).data == Some(req.payload)
      && RequestKey(cfg.prefix, req.freshId) in r.store.kv
      && r.store.kv[RequestKey(cfg.prefix, req.freshId)] == SummaryBlob(req.payload, req.ctx)
  {
  }

  /** Every id of the list still has both of its keys after the capacity check. */
  lemma CheckLogNumKeepsConsistent(cfg: Settings, s: Store<Blob>)
    requires Bounded(s, cfg.logNum) && Consistent(s, cfg.prefix)
    ensures var s1 := CheckLogNum(cfg, s);
      && Consistent(s1, cfg.prefix)
      && forall id :: id in s1.index ==> id in s.index
  {
    var s1 := CheckLogNum(cfg, s);
    if s.counter + 1 > cfg.logNum {
      var n := |s.index|;
      var victim := s.index[n - 1];
      assert s1.index == s.index[..n - 1];
      forall id | id in s1.index
        ensures RequestKey(cfg.prefix, id) in s1.kv
        ensures PayloadKey(cfg.prefix, id) in s1.kv && s1.kv[PayloadKey(cfg.prefix, id)].SerializedRun?
      {
        var i :| 0 <= i < n - 1 && s.index[i] == id;
        assert id != victim;
        KeysDistinct(cfg.prefix, id, victim);
        KeysDistinct(cfg.prefix, victim, id);
      }
    }
  }

  /** Pushing a fresh id and writing its two keys keeps the list complete and free of repeats. */
  lemma SaveToRedisKeepsConsistent(cfg: Settings, s: Store<Blob>, req: SaveRequest)
    requires Consistent(s, cfg.prefix)
    requires req.freshId !in s.index
    ensures Consistent(SaveToRedis(cfg, s, req), cfg.prefix)
  {
    var r := SaveToRedis(cfg, s, req);
    forall id | id in r.index
      ensures RequestKey(cfg.prefix, id) in r.kv
      ensures PayloadKey(cfg.prefix, id) in r.kv && r.kv[PayloadKey(cfg.prefix, id)].SerializedRun?
    {
      if id != req.freshId {
        KeysDistinct(cfg.prefix, id, req.freshId);
        KeysDistinct(cfg.prefix, req.freshId, id);
      }
    }
    forall i, j | 0 <= i < j < |r.index|
      ensures r.index[i] != r.index[j]
    {
      assert r.index[j] == s.index[j - 1];
    }
  }

  /** With a fresh id, an accepted save keeps every listed run complete and the list free of repeats. */
  lemma SaveKeepsConsistent(cfg: Settings, s: Store<Blob>, req: SaveRequest)
    requires Bounded(s, cfg.logNum) && Consistent(s, cfg.prefix) && Accepted(cfg, req)
    requires req.freshId !in s.index
    ensures Consistent(SaveRun(cfg, s, req).store, cfg.prefix)
  {
    CheckLogNumKeepsConsistent(cfg, s);
    SaveToRedisKeepsConsistent(cfg, CheckLogNum(cfg, s), req);
  }

  /**
   * Under the retention invariant, when every retained run's summary was
   * encoded, the listing shows every retained run, newest first.
   */
  lemma ListShowsAllRetained(cfg: Settings, s: Store<Blob>)
    requires Bounded(s, cfg.logNum) && SummariesEncoded(s, cfg.prefix)
    ensures ListRuns(cfg, s) == s.index
  {
    assert LRangeFromHead(s.index, cfg.logNum) == s.index;
  }

  /** An accepted save with an encodable summary and a fresh id keeps every retained summary encoded. */
  lemma SaveKeepsSummariesEncoded(cfg: Settings, s: Store<Blob>, req: SaveRequest)
    requires Bounded(s, cfg.logNum) && Distinct(s.index) && SummariesEncoded(s, cfg.prefix)
    requires Accepted(cfg, req) && req.ctx.encodable
    ensures SummariesEncoded(SaveRun(cfg, s, req).store, cfg.prefix)
  {
    var s1 := CheckLogNum(cfg, s);
    var r := SaveToRedis(cfg, s1, req);
    assert SaveRun(cfg, s, req).store == r;
    forall id | id in s1.index
      ensures RequestKey(cfg.prefix, id) in s1.kv && s1.kv[RequestKey(cfg.prefix, id)].SummaryJson?
    {
      if s.counter + 1 > cfg.logNum {
        var n := |s.index|;
        var victim := s.index[n - 1];
        var i :| 0 <= i < n - 1 && s.index[i] == id;
        assert id != victim;
        KeysDistinct(cfg.prefix, id, victim);
        KeysDistinct(cfg.prefix, victim, id);
      }
    }
    forall id | id in r.index
      ensures RequestKey(cfg.prefix, id) in r.kv && r.kv[RequestKey(cfg.prefix, id)].SummaryJson?
    {
      if id != req.freshId {
        KeysDistinct(cfg.prefix, id, req.freshId);
        KeysDistinct(cfg.prefix, req.freshId, id);
      }
    }
  }

  /** Right after an accepted save whose summary could be encoded, the new run heads the listing. */
  lemma NewestListedFirst(cfg: Settings, s: Store<Blob>, req: SaveRequest)
    requires Bounded(s, cfg.logNum) && Accepted(cfg, req) && req.ctx.encodable
    ensures var listed := ListRuns(cfg, SaveRun(cfg, s, req).store);
      |listed| > 0 && listed[0] == req.freshId
  {
    var r := SaveRun(cfg, s, req).store;
    SaveThenGet(cfg, s, req, "");
    var window := LRangeFromHead(r.index, cfg.logNum);
    assert |window| > 0 && window[0] == req.freshId;
  }

  /**
   * A run whose summary `json_encode` cannot encode is counted, retained and
   * fetchable, but the listing never shows it: its summary key holds "".
   */
  lemma UnencodableNeverListed(cfg: Settings, s: Store<Blob>, req: SaveRequest, runType: string)
    requires Accepted(cfg, req) && !req.ctx.encodable
    ensures var r := SaveRun(cfg, s, req).store;
      && r.index[0] == req.freshId
      && GetRun(cfg.prefix, r, req.freshId, runType).data == Some(req.payload)
      && req.freshId !in ListRuns(cfg, r)
  {
    SaveThenGet(cfg, s, req, runType);
  }

  /**
   * With a capacity of zero or less, every save first pops (possibly from an
   * empty list) and then pushes: the list keeps exactly the latest run while
   * the counter stays at zero.
   */
  lemma NonPositiveCapacityKeepsLatest(cfg: Settings, s: Store<Blob>, req: SaveRequest)
    requires cfg.logNum <= 0 && Accepted(cfg, req)
    requires s.counter == 0 && |s.index| <= 1
    ensures var r := SaveRun(cfg, s, req).store;
      r.index == [req.freshId] && r.counter == 0
  {
  }
}
